=== FILE: README.md ===
# ToggleTouchPad, modelled in Dafny

ToggleTouchPad is a small Linux tool that turns the touchpad off and on:

- It finds the touchpad among the input devices that libudev enumerates.
- It flips the sysfs flag file `device/inhibited` of that device between `0` and `1`.
- It tells the desktop user with a `notify-send` notification, sent with the effective ids dropped to that user's.
- Before any of that, `parse_args` decides how the program runs:
  - as root (through sudo) on behalf of a named user;
  - as an ordinary user, who must re-run the program through pkexec;
  - as the re-run under pkexec, which reads its user from `TPD_UID` and `TPD_GID`.

The model has one module per part of the program:

| file | module | models |
|---|---|---|
| `common.dfy` | `Common` | Rust's `u32`, `Option`, and `Fate`: how a call ends (value, `exit(code)` or panic) |
| `text.dfy` | `RustText` | `str::trim`, `u32::from_str` and `u32::to_string`, which the program uses to read and write numbers |
| `paths.dfy` | `Paths` | `OsStr` (possibly non-UTF-8: a sequence of characters and stray bytes at or above 0x80, none of which is `/`), `Path::file_name`, `OsStr::to_str` and `Path::join` |
| `locator.dfy` | `Locator` | `find_touchpad_sysfs` as a loop over the enumerated devices, and its specification `Locate` |
| `flag.dfy` | `InhibitFlag` | the flag file as a class with a mutable `content`; `DecodeStatus`, the meaning of `status`; `ToggleEffect`, the meaning of `toggle` |
| `permguard.dfy` | `PermGuard` | the process identity as a class with the six real/effective/saved ids; `PrivDropGuard::to_user`, its `Drop`, and `become_user` |
| `notify.dfy` | `Notify` | the message `send_notify` chooses, and the argument vectors of `sudo_send` and `pkexec_send` |
| `touchpad.dfy` | `Touchpad` | `TouchPad` of src/touchpad.rs: `new`, `status`, `toggle`, `send_notify` |
| `parse.dfy` | `Parse` | `Permissions` and `parse_args` as a pure decision function `ParseArgs` returning an `Outcome` |
| `legacy.dfy` | `Legacy` | the stand-alone program of src/main.rs: its `TouchPad` and `main` |

The outside world enters as inputs:

- The libudev enumeration is an `Option<seq<Device>>`. `None` stands for the context, enumerator, filter or scan failing.
- Whether reading or writing the flag file succeeds is a `bool` argument.
- Whether the kernel grants each set-id call is a `bool` argument. A ghost `calls` field records the set-id calls in the order they are issued.
- The environment is a map from names to values. The user database is a map from names to (uid, gid).

Three functions carry most of the meaning: `Parse.ParseArgs`, `InhibitFlag.DecodeStatus` and `Locator.Locate`. Each is characterised by the lemmas in the table below.

- `Locator.FindTouchpadSysfs` is proved against `Locate`.
- The `Toggle` methods of both `TouchPad` classes are proved against `InhibitFlag.ToggleEffect`.
- Both `Status` methods are proved against `DecodeStatus`.

The code and its prose descriptions disagree in one place. `find_touchpad_sysfs` says the sysfs path is "/sys + syspath", but `PathBuf::from("/sys").join(syspath)` with an absolute syspath yields the syspath itself. The model follows the code (`Locator.SysfsPathOfAbsolute`).

## Model

| member | source | states |
|---|---|---|
| RustText.Trim | src/touchpad.rs:63 | `trim` yields a slice of its argument with only whitespace before and after it, and the slice neither starts nor ends with whitespace |
| RustText.TrimPadded | src/touchpad.rs:63 | whitespace around a text that neither starts nor ends with whitespace is exactly what `trim` removes |
| RustText.TrimWhitespace | src/touchpad.rs:63 | text made only of whitespace trims to the empty string |
| RustText.ParseU32 | src/touchpad.rs:63 | a successful `parse::<u32>` saw a nonempty text that ends in a digit and starts with a digit or `+` |
| RustText.Decimal | src/touchpad.rs:144 | `to_string` of a number is a nonempty string of digits, without a leading zero, that denotes the number |
| RustText.ParseDecimal | src/parse.rs:22-23 | parsing `to_string`'s output gives the number back; beyond `u32::MAX` it is refused |
| RustText.ParsePlusSign | src/touchpad.rs:63 | a leading `+` is accepted and does not change the value |
| RustText.ParseLeadingZeros | src/touchpad.rs:63 | any number of leading zeros is accepted and does not change the value |
| RustText.ParseRejectsStray | src/parse.rs:22-23 | a character that is neither a digit nor a leading `+` (such as whitespace or `-`) makes the parse fail |
| Paths.ToStr | src/touchpad.rs:27 | `to_str` succeeds exactly when every unit is valid text, and then gives back the same units |
| Paths.ToStrFromStr | src/touchpad.rs:27 | a path made from text converts back to that text |
| Paths.FileName | src/touchpad.rs:27 | a file name is nonempty, contains no `/` and is neither `.` nor `..` |
| Paths.FileNameOfName | src/touchpad.rs:27 | a normal component is its own file name and stays the file name under any directory: `file_name` gives the last component |
| Paths.FileNameOfParent | src/touchpad.rs:27 | a path ending in a `..` component has no file name, so the search stops there |
| Paths.FileNameOfSlashes | src/touchpad.rs:27 | the empty path, `/` and any run of slashes have no file name |
| Paths.FileNameIgnoresCurrentDir | src/touchpad.rs:27 | for every path, appending `/` or `/.` leaves the file name unchanged, so `a/b/` and `a/b/.` name `b` |
| Paths.Join | src/touchpad.rs:37 | an absolute argument replaces the base; otherwise the result is the base, a `/` where one is missing, then the argument, and nothing else |
| Paths.FileNameOfJoin | src/touchpad.rs:50 | joining a relative path that has a file name keeps that file name |
| Locator.FindTouchpadSysfs | src/touchpad.rs:14-41 | the device loop, with its `continue`, early `return` and `?` exits, returns what `Locate` gives for the enumeration, and `None` when enumerating fails; src/main.rs:20-45 is the same code |
| Locator.Locate | src/touchpad.rs:23-40 | the search as a function of the enumeration: a result is the sysfs path of a device that is a touchpad event node; `LocateFirstMatch` characterises it fully |
| Locator.LocateFirstMatch | src/touchpad.rs:23-40 | the search returns `p` exactly when some device is a touchpad event node with sysfs path `p` and no device before it aborts or matches (first match in enumeration order) |
| Locator.LocateSound | src/touchpad.rs:23-40 | a result of the search is the sysfs path of the first matching device |
| Locator.LocateComplete | src/touchpad.rs:23-40 | the first matching device, reached without an abort, is what the search returns |
| Locator.NoTouchpadNoResult | src/touchpad.rs:23-40 | without a touchpad event node the search returns `None` |
| Locator.AbortBeforeMatch | src/touchpad.rs:25-27 | a device with no syspath, no file name or a non-UTF-8 file name, met before any match, ends the whole search with `None` |
| Locator.MissingPropertyNoMatch | src/touchpad.rs:31-34 | a missing `ID_INPUT_TOUCHPAD` reads as "0" and never matches |
| Locator.NonEventNodeNoMatch | src/touchpad.rs:27-29 | a node whose name does not start with "event" is skipped even when it is a touchpad |
| Locator.SysfsPathOfAbsolute | src/touchpad.rs:37 | `/sys` joined with an absolute syspath is the syspath itself |
| Locator.InhibitedPathOfDevice | src/touchpad.rs:50 | the flag file of a device at syspath `sp` is `sp/device/inhibited`, and its file name is `inhibited` |
| InhibitFlag.FlagFile.Read | src/touchpad.rs:59 | a successful read gives the current content; a failed one gives nothing |
| InhibitFlag.FlagFile.Write | src/touchpad.rs:79 | a successful write replaces the content; a failed one leaves it as it was |
| InhibitFlag.DecodeStatus | src/touchpad.rs:57-75 | what `status` makes of a read: every exit has status 1, and it exits exactly when the read fails or the trimmed content does not parse; `DecodeDone` and the lemmas below characterise the rest |
| InhibitFlag.ToggleEffect | src/touchpad.rs:77-83 | the outcome of `toggle` and the content it leaves: the file changes only on a completed toggle, which needed both the read and the write, and then holds the negation of the flag read; every exit has status 1 |
| InhibitFlag.DecodeDone | src/touchpad.rs:63-73 | `status` reads `b` exactly when the trimmed content is an optional `+`, zeros, then the digit of `b`, so "01" and "+1" read as inhibited |
| InhibitFlag.DecodeLenient | src/touchpad.rs:63 | surrounding whitespace, a `+` sign and leading zeros do not change the flag read |
| InhibitFlag.DecodePaddedNumber | src/touchpad.rs:63-75 | the flag is decided by the parsed number alone: 0 is false, 1 is true, anything else panics |
| InhibitFlag.DecodeOtherNumberPanics | src/touchpad.rs:71-75 | a number other than 0 and 1 panics, whatever whitespace surrounds it |
| InhibitFlag.DecodeNonNumber | src/touchpad.rs:63-70 | content with a character that is neither a digit nor a leading `+` exits with status 1 |
| InhibitFlag.DecodeBlank | src/touchpad.rs:59-70 | an unreadable file, or one holding only whitespace, exits with status 1 |
| InhibitFlag.DecodeNegative | src/touchpad.rs:63-70 | a negative number exits with status 1 |
| InhibitFlag.DecodeFlagText | src/touchpad.rs:78 | what `toggle` writes ("1\n" or "0\n") reads back as the flag it meant |
| InhibitFlag.ToggleFlips | src/touchpad.rs:77-83 | a successful toggle writes the negation of the flag it read, and `status` afterwards returns that negation |
| InhibitFlag.ToggleTwiceRestores | src/touchpad.rs:77-83 | two successful toggles restore the flag read at first |
| InhibitFlag.ToggleFailureKeepsFile | src/touchpad.rs:77-83 | a toggle that does not complete leaves the file unchanged and ends like the failing step (exit 1, or the panic) |
| PermGuard.Process.SetEffectiveGid | src/lib.rs:21 | `setegid` changes only the effective gid, and only when granted |
| PermGuard.Process.SetEffectiveUid | src/lib.rs:22 | `seteuid` changes only the effective uid, and only when granted |
| PermGuard.Process.SetAllGids | src/lib.rs:47 | `setresgid` sets all three gids or none |
| PermGuard.Process.SetAllUids | src/lib.rs:48 | `setresuid` sets all three uids or none |
| PermGuard.ToUser | src/lib.rs:17-26 | records the effective ids before changing anything, then sets egid and after it euid. Success only when both are granted, and the guard holds the previous ids. If `setegid` fails nothing changes; if `seteuid` fails egid has already changed and there is no guard. Real and saved ids never change |
| PermGuard.Drop | src/lib.rs:32-39 | restores euid first, then egid; a failure of either is ignored and leaves that id as it was |
| PermGuard.WithUser | src/lib.rs:17-40 | acquire then drop, every call granted: the user's ids are effective while the guard is held, and afterwards euid and egid are back to their previous values |
| PermGuard.BecomeUser | src/lib.rs:44-50 | sets all gids, then all uids, stopping at the first failure, with no restore |
| Notify.Message | src/touchpad.rs:85-95 | the message is "触摸板已关闭" exactly when the flag reads inhibited, and "触摸板已开启" otherwise |
| Notify.MessageNamesState | src/touchpad.rs:86-95 | the two states give different messages |
| Notify.SudoSendArgs | src/touchpad.rs:129-144 | the `sudo_send` command: `sudo -u <user> env <DISPLAY> <bus address>` followed by exactly the `pkexec_send` command |
| Notify.PkexecSendArgs | src/touchpad.rs:155-159 | the `notify-send` command: app name "TouchPad", the message as one argument, and a duration that parses back to the same number |
| Notify.SudoSendDefaults | src/touchpad.rs:130-140 | with the variables unset, `sudo_send` runs as "root" on display ":0" with the session bus of uid 1000 |
| Notify.SudoSendFromEnvironment | src/touchpad.rs:130-140 | when set, `SUDO_USER`, `DISPLAY` and `SUDO_UID` are what `sudo` and `env` receive |
| Notify.SudoSendEachVariable | src/touchpad.rs:130-140 | in every environment, each of `SUDO_USER`, `DISPLAY` and `SUDO_UID` is passed on when set and replaced by its own default ("root", ":0", "1000") when not, independently of the others |
| Notify.SendersAgree | src/touchpad.rs:129-169 | both senders run the same `notify-send` command, with the message as one argument and a duration that parses back to the same number |
| Touchpad.TouchPad.New | src/touchpad.rs:42-56 | exits with status 1 when no touchpad is found; otherwise keeps the uid, gid and the located path joined with "device/inhibited" |
| Touchpad.TouchPad.Status | src/touchpad.rs:57-76 | reads the file and decodes it as `DecodeStatus` |
| Touchpad.TouchPad.Toggle | src/touchpad.rs:77-83 | ends and leaves the file as `ToggleEffect` says |
| Touchpad.TouchPad.SendAsUser | src/touchpad.rs:87-90 | the guarded block: drops to the touchpad's uid/gid, panicking when the drop fails with the calls made so far recorded; builds the `sudo_send` command with 3000 ms while dropped; then the guard restores euid and egid, in that order |
| Touchpad.TouchPad.SendNotify | src/touchpad.rs:84-97 | reads the flag first, exiting or panicking as `status` does. It then drops to the touchpad's uid/gid, and a failed drop panics. It builds the `sudo_send` command for the matching message with 3000 ms while dropped, then the guard restores euid and egid |
| Touchpad.NotifyAfterToggle | src/touchpad.rs:77-97 | after a successful toggle the notification names the new state |
| Parse.ProgramName | src/parse.rs:14-16 | the name the usage shows: `args[0]`, or "toggle_touchpad" for an empty argument list |
| Parse.ParseArgs | src/parse.rs:8-55 | the decision table: every exit has status 2; usage is printed only for `-h`/`--help` and names `args[0]`; `PkexecRooted` comes only from `-e`/`--get-env`; `Rooted` only from exactly one argument naming a known user, with that user's ids |
| Parse.HelpExitsTwo | src/parse.rs:13-19 | `--help` or `-h` as first argument prints the usage for `args[0]` and exits 2, whoever runs it and whatever follows |
| Parse.GetEnvReadsIds | src/parse.rs:20-25 | `-e`/`--get-env` yields `PkexecRooted` with the ids written in `TPD_UID`/`TPD_GID`, whatever follows |
| Parse.GetEnvAnySpelling | src/parse.rs:20-25 | any spelling `parse::<u32>` accepts in `TPD_UID`/`TPD_GID`, such as `007` or `+8`, gives `PkexecRooted` with those values |
| Parse.GetEnvPanics | src/parse.rs:20-23 | a missing or unparsable `TPD_UID` or `TPD_GID` panics |
| Parse.ExtraArgumentsExit | src/parse.rs:27-31 | a user name followed by more arguments exits 2, whatever the user database holds |
| Parse.UnknownUserExits | src/parse.rs:32-35 | an unknown user name exits 2 |
| Parse.KnownUserGranted | src/parse.rs:36-44 | a known user gives `Rooted` with that user's ids when run as root, `PkexecNeedRoot` otherwise |
| Parse.NoArgumentsOutcome | src/parse.rs:46-53 | with no argument, root exits 2 and anyone else gets `PkexecNeedRoot` with their own ids |
| Parse.OutcomeMatchesCaller | src/parse.rs:8-55 | `Rooted` only for root, `PkexecNeedRoot` only for others, and a panic only from the re-run flag |
| Legacy.LegacyTouchPad.New | src/main.rs:9-19 | exits with status 1 when no touchpad is found; otherwise keeps the located path joined with "device/inhibited" |
| Legacy.LegacyTouchPad.Status | src/main.rs:46-69 | decodes exactly as `DecodeStatus` |
| Legacy.LegacyTouchPad.Toggle | src/main.rs:70-76 | ends and leaves the file as `ToggleEffect` says |
| Legacy.Run | src/main.rs:79-82 | builds the touchpad once and toggles once; without a touchpad it exits 1 and does not touch the file |

## Left out

- Paths.OsChar: raw units are taken to be bytes outside any valid UTF-8 sequence; the type does not forbid raw bytes that would spell a character (such as 0xC3 0xA9), for which `to_str` in Rust succeeds while `ToStr` refuses.
- The libudev calls (`Context::new`, `Enumerator::new`, `match_subsystem`, `scan_devices`) are not modelled. Their combined result is the `scan` input.
- File I/O is not modelled. The flag file is a string field, and each read or write succeeding is an input. A failed write is taken to leave the content as it was.
- `notify-send` and `sudo` are not run. Only the argument vectors are built, and the error a failed launch prints is not modelled; the source ignores it.
- Which identities the kernel allows to switch to which is not modelled. Each set-id call's success is an input.
- Concurrent toggles are not modelled. The read-then-write of `toggle` is one step of a single-threaded model, so a lost update between two processes is not captured.
- The text of `eprintln!`/`println!` diagnostics, `print_help`'s output and the `TouchpadError` `Display` formatting (src/touchpad.rs:99-124) are output only and are not modelled.
- The `user` module (src/lib.rs:52-74) is a map of user names for `user_exists` and `get_uid_gid`, and a uid and gid for `get_current_guid`. `is_root` is the uid being 0. Both name lookups read the same map, so the "failed uid/gid lookup" exit (src/parse.rs:36-39) is kept in `Parse.ParseArgs` but cannot be reached.
- Not modelled: `env::args` panicking on an argument that is not valid Unicode, and `env::var` rejecting such a value. Arguments and environment values are Dafny strings.
- Re-running the program through pkexec is not modelled, because no code for it is part of the modelled files. `Notify.PkexecSendArgs` is there only as the other sender.
- The `path` of a `TouchPad` is not used to open anything. `status` and `toggle` act on the `file` given to `new`, which stands for the file at that path.
- `Process`'s `calls` trace is ghost. It records the order of the set-id calls and does not exist in the program.

=== FILE: common.dfy ===
/** Types shared by every part of the model. */
module Common {

  /** Rust's `u32`. */
  newtype u32 = x: int | 0 <= x < 0x1_0000_0000

  datatype Option<+T> = None | Some(value: T)

  /** The process environment: variable name to value. */
  type Env = map<string, string>

  /**
   * How a Rust call ends: it returns a value, it ends the process with
   * `std::process::exit(code)`, or it panics (an `unwrap` on an error,
   * an explicit `panic!`).
   */
  datatype Fate<+T> = Done(value: T) | Exit(code: int) | Panic
}

=== FILE: flag.dfy ===
/**
 * The touchpad's inhibit flag: the sysfs file `device/inhibited`, how its
 * content is decoded (`status`) and how `toggle` rewrites it. The decoding
 * and the effect of a toggle are the same in src/touchpad.rs and
 * src/main.rs; both `TouchPad` classes are specified by the functions here.
 */
module InhibitFlag {
  import opened Common
  import opened RustText

  /** The flag file. Reading and writing it may fail; whether they do is an input of each operation. */
  class FlagFile {
    var content: string

    constructor (content: string)
      ensures this.content == content
    {
      this.content := content;
    }

    /** `std::fs::read_to_string`. */
    method Read(ok: bool) returns (r: Option<string>)
      ensures r == if ok then Some(content) else None
    {
      r := if ok then Some(content) else None;
    }

    /** `std::fs::write`: replaces the content, or fails and leaves it as it was. */
    method Write(data: string, ok: bool) returns (written: bool)
      modifies this
      ensures written == ok
      ensures content == if ok then data else old(content)
    {
      written := ok;
      if ok {
        content := data;
      }
    }
  }

  /**
   * `status`: the read content, trimmed and parsed as a `u32`. 0 means
   * not inhibited and 1 inhibited; an unreadable file or content that does
   * not parse exits with status 1; any other number panics.
   */
  function DecodeStatus(read: Option<string>): (f: Fate<bool>)
    ensures f.Exit? ==> f.code == 1
    ensures f.Exit? <==> read.None? || ParseU32(Trim(read.value)).None?
  {
    match read
    case None => Exit(1)
    case Some(s) =>
      match ParseU32(Trim(s))
      case None => Exit(1)
      case Some(n) => if n == 0 then Done(false) else if n == 1 then Done(true) else Panic
  }

  /** The digit that stands for the flag: '1' inhibited, '0' not. */
  function BitChar(b: bool): char {
    if b then '1' else '0'
  }

  /** What `toggle` writes to mark the touchpad inhibited or not: "1\n" or "0\n". */
  function FlagText(inhibited: bool): string {
    [BitChar(inhibited), '\n']
  }

  /**
   * The effect of `toggle` on a file holding `content`: how the call ends
   * and what the file holds afterwards. It reads the flag and writes its
   * negation; a failed read or decode leaves the file alone, a failed write
   * exits with status 1.
   */
  function ToggleEffect(content: string, readOk: bool, writeOk: bool): (r: (Fate<()>, string))
    ensures r.0.Exit? ==> r.0.code == 1
    ensures r.1 != content ==> r.0 == Done(()) && readOk && writeOk
    ensures r.0 == Done(()) ==> readOk && writeOk && DecodeStatus(Some(content)).Done?
                                && r.1 == FlagText(!DecodeStatus(Some(content)).value)
  {
    match DecodeStatus(if readOk then Some(content) else None)
    case Done(inhibited) =>
      if writeOk then (Done(()), FlagText(!inhibited)) else (Exit(1), content)
    case Exit(code) => (Exit(code), content)
    case Panic => (Panic, content)
  }

  /**
   * `t` spells the flag `b` in a way `parse::<u32>` accepts: an optional
   * `+`, any number of zeros, then the digit of `b`.
   */
  predicate IsFlagSpelling(t: string, b: bool) {
    && t != []
    && t[|t| - 1] == BitChar(b)
    && var body := t[..|t| - 1];
       var zeros := if body != [] && body[0] == '+' then body[1..] else body;
       forall i :: 0 <= i < |zeros| ==> zeros[i] == '0'
  }

  lemma {:induction false} ZeroValueIsZeros(d: string)
    requires AllDigits(d) && DigitsValue(d) == 0
    ensures forall i :: 0 <= i < |d| ==> d[i] == '0'
    decreases |d|
  {
    if d != [] {
      var front := d[..|d| - 1];
      ZeroValueIsZeros(front);
      forall i | 0 <= i < |d| ensures d[i] == '0' {
        if i < |d| - 1 { assert d[i] == front[i]; }
      }
    }
  }

  lemma AllZerosValue(d: string)
    requires forall i :: 0 <= i < |d| ==> d[i] == '0'
    ensures AllDigits(d) && DigitsValue(d) == 0
  {
    assert d == Zeros(|d|);
    LeadingZerosValue(|d|, []);
    assert Zeros(|d|) + [] == Zeros(|d|);
  }

  /** A digit string whose value is below ten is zeros followed by that digit. */
  lemma SmallValueDigits(d: string)
    requires d != [] && AllDigits(d) && DigitsValue(d) < 10
    ensures forall i :: 0 <= i < |d| - 1 ==> d[i] == '0'
    ensures d[|d| - 1] as int - '0' as int == DigitsValue(d)
  {
    var front := d[..|d| - 1];
    assert DigitsValue(front) == 0;
    ZeroValueIsZeros(front);
  }

  /**
   * The decoding accepts exactly the spellings of 0 and 1 that
   * `parse::<u32>` accepts once surrounding whitespace is trimmed, so
   * "01" and "+1" read as inhibited; it is no stricter than the parser.
   */
  lemma DecodeDone(s: string, b: bool)
    ensures DecodeStatus(Some(s)) == Done(b) <==> IsFlagSpelling(Trim(s), b)
  {
    var t := Trim(s);
    DecodeOfParse(s, b);
    if ParseU32(t) == Some(if b then 1 else 0) {
      ParsedFlagIsSpelling(t, b);
    }
    if IsFlagSpelling(t, b) {
      SpellingParses(t, b);
    }
  }

  lemma DecodeOfParse(s: string, b: bool)
    ensures DecodeStatus(Some(s)) == Done(b) <==> ParseU32(Trim(s)) == Some(if b then 1 else 0)
  {
  }

  lemma ParsedFlagIsSpelling(t: string, b: bool)
    requires ParseU32(t) == Some(if b then 1 else 0)
    ensures IsFlagSpelling(t, b)
  {
    var digits := if t[0] == '+' then t[1..] else t;
    SmallValueDigits(digits);
    assert t[|t| - 1] == digits[|digits| - 1];
    var body := t[..|t| - 1];
    assert body == (if t[0] == '+' then [t[0]] + digits[..|digits| - 1] else digits[..|digits| - 1]);
  }

  lemma SpellingParses(t: string, b: bool)
    requires IsFlagSpelling(t, b)
    ensures ParseU32(t) == Some(if b then 1 else 0)
  {
    var body := t[..|t| - 1];
    assert t == body + [BitChar(b)];
    if body != [] && body[0] == '+' {
      var zeros := body[1..];
      assert body == ['+'] + zeros;
      assert t == ['+'] + (zeros + [BitChar(b)]);
      ZerosThenBit(zeros, b);
      ParsePlusSign(zeros + [BitChar(b)]);
    } else {
      ZerosThenBit(body, b);
    }
  }

  lemma ZerosThenBit(zeros: string, b: bool)
    requires forall i :: 0 <= i < |zeros| ==> zeros[i] == '0'
    ensures ParseU32(zeros + [BitChar(b)]) == Some(if b then 1 else 0)
    ensures (zeros + [BitChar(b)])[0] != '+'
  {
    var digits := zeros + [BitChar(b)];
    AllZerosValue(zeros);
    assert digits[..|digits| - 1] == zeros;
    assert AllDigits(digits);
    assert DigitsValue(digits) == if b then 1 else 0;
  }

  /** What `toggle` writes reads back as the flag it meant to write. */
  lemma DecodeFlagText(b: bool)
    ensures DecodeStatus(Some(FlagText(b))) == Done(b)
  {
    DecodeLenient([], false, 0, b, "\n");
    assert [] + Spelled(false, 0, b) + "\n" == FlagText(b);
  }

  /** The sign, zeros and digit that `DecodeLenient` surrounds with whitespace. */
  function Spelled(plus: bool, k: nat, b: bool): string {
    (if plus then ['+'] else []) + Zeros(k) + [BitChar(b)]
  }

  lemma SpelledIsSpelling(plus: bool, k: nat, b: bool)
    ensures var t := Spelled(plus, k, b);
            IsFlagSpelling(t, b) && !IsWhitespace(t[0]) && !IsWhitespace(t[|t| - 1])
  {
    var t := Spelled(plus, k, b);
    var body := t[..|t| - 1];
    assert body == (if plus then ['+'] else []) + Zeros(k);
    if plus {
      assert body[1..] == Zeros(k);
    } else {
      assert body == Zeros(k);
    }
  }

  /** Padding, a `+` sign and leading zeros around the digit do not change what is read. */
  lemma DecodeLenient(pre: string, plus: bool, k: nat, b: bool, post: string)
    requires AllWhitespace(pre) && AllWhitespace(post)
    ensures DecodeStatus(Some(pre + Spelled(plus, k, b) + post)) == Done(b)
  {
    var core := Spelled(plus, k, b);
    SpelledIsSpelling(plus, k, b);
    TrimPadded(pre, core, post);
    DecodeDone(pre + core + post, b);
  }

  /** Whitespace around a number the parser accepts is ignored: the flag is decided by the number alone. */
  lemma DecodePaddedNumber(pre: string, d: string, post: string, v: u32)
    requires AllWhitespace(pre) && AllWhitespace(post)
    requires ParseU32(d) == Some(v)
    ensures DecodeStatus(Some(pre + d + post)) == if v == 0 then Done(false) else if v == 1 then Done(true) else Panic
  {
    TrimPadded(pre, d, post);
  }

  /** A number other than 0 and 1 panics, whatever whitespace surrounds it. */
  lemma DecodeOtherNumberPanics(pre: string, n: nat, post: string)
    requires AllWhitespace(pre) && AllWhitespace(post)
    requires 2 <= n < 0x1_0000_0000
    ensures DecodeStatus(Some(pre + Decimal(n) + post)) == Panic
  {
    ParseDecimal(n);
    DecodePaddedNumber(pre, Decimal(n), post, n as u32);
  }

  /**
   * Text holding a character that is neither a digit nor a leading `+`
   * exits with status 1, whatever whitespace surrounds it.
   */
  lemma DecodeNonNumber(pre: string, core: string, post: string, i: nat)
    requires AllWhitespace(pre) && AllWhitespace(post)
    requires core != [] && !IsWhitespace(core[0]) && !IsWhitespace(core[|core| - 1])
    requires i < |core| && !IsDigit(core[i]) && !(i == 0 && core[i] == '+')
    ensures DecodeStatus(Some(pre + core + post)) == Exit(1)
  {
    TrimPadded(pre, core, post);
    ParseRejectsStray(core, i);
  }

  /** An unreadable file, and a file holding only whitespace, exit with status 1. */
  lemma DecodeBlank(s: string)
    requires AllWhitespace(s)
    ensures DecodeStatus(Some(s)) == Exit(1)
    ensures DecodeStatus(None) == Exit(1)
  {
    TrimWhitespace(s);
  }

  /** A negative number exits with status 1: `u32` has no sign to accept. */
  lemma DecodeNegative(pre: string, n: nat, post: string)
    requires AllWhitespace(pre) && AllWhitespace(post)
    ensures DecodeStatus(Some(pre + ['-'] + Decimal(n) + post)) == Exit(1)
  {
    var core := ['-'] + Decimal(n);
    assert core[|core| - 1] == Decimal(n)[|Decimal(n)| - 1];
    assert pre + ['-'] + Decimal(n) + post == pre + core + post;
    DecodeNonNumber(pre, core, post, 0);
  }

  /**
   * A successful toggle writes the negation of the flag it read: reading
   * the file afterwards gives the opposite of what was read before.
   */
  lemma ToggleFlips(content: string, b: bool)
    requires DecodeStatus(Some(content)) == Done(b)
    ensures ToggleEffect(content, true, true) == (Done(()), FlagText(!b))
    ensures DecodeStatus(Some(ToggleEffect(content, true, true).1)) == Done(!b)
  {
    DecodeFlagText(!b);
  }

  /**
   * Two successful toggles restore the flag that was read at first; the
   * file then holds that flag in the form `toggle` writes.
   */
  lemma ToggleTwiceRestores(content: string, b: bool)
    requires DecodeStatus(Some(content)) == Done(b)
    ensures var once := ToggleEffect(content, true, true).1;
            var twice := ToggleEffect(once, true, true).1;
            twice == FlagText(b) && DecodeStatus(Some(twice)) == Done(b)
  {
    ToggleFlips(content, b);
    ToggleFlips(FlagText(!b), !b);
    DecodeFlagText(b);
  }

  /** A toggle that does not complete leaves the file as it was and ends like the failing step. */
  lemma ToggleFailureKeepsFile(content: string, readOk: bool, writeOk: bool)
    requires ToggleEffect(content, readOk, writeOk).0 != Done(())
    ensures ToggleEffect(content, readOk, writeOk).1 == content
    ensures var f := DecodeStatus(if readOk then Some(content) else None);
            ToggleEffect(content, readOk, writeOk).0 == if f.Done? then Exit(1) else if f.Panic? then Panic else Exit(f.code)
  {
  }
}

=== FILE: legacy.dfy ===
/**
 * The earlier stand-alone program in src/main.rs: a `TouchPad` that only
 * knows its flag file, and a `main` that toggles it once. It locates,
 * decodes and toggles exactly as src/touchpad.rs does, so it is specified
 * by the same functions.
 */
module Legacy {
  import opened Common
  import opened RustText
  import opened Paths
  import opened Locator
  import opened InhibitFlag

  class LegacyTouchPad {
    /** Where the flag file is. */
    const path: OsStr
    /** The flag file found at `path`. */
    const file: FlagFile

    constructor (path: OsStr, file: FlagFile)
      ensures this.path == path && this.file == file
    {
      this.path, this.file := path, file;
    }

    /** `TouchPad::new`: exits with status 1 when no touchpad is found. */
    static method New(scan: Option<seq<Device>>, file: FlagFile) returns (r: Fate<LegacyTouchPad>)
      ensures var found := if scan.None? then None else Locate(scan.value);
              && (found.None? ==> r == Exit(1))
              && (found.Some? ==> r.Done? && r.value.path == InhibitedPath(found.value) && r.value.file == file)
    {
      var found := FindTouchpadSysfs(scan);
      if found.None? {
        return Exit(1);
      }
      var pad := new LegacyTouchPad(Join(found.value, InhibitedRelative), file);
      r := Done(pad);
    }

    /** `status`. */
    method Status(readOk: bool) returns (f: Fate<bool>)
      ensures f == DecodeStatus(if readOk then Some(file.content) else None)
    {
      var read := file.Read(readOk);
      if read.None? {
        return Exit(1);
      }
      var parsed := ParseU32(Trim(read.value));
      if parsed.None? {
        return Exit(1);
      }
      f := if parsed.value == 0 then Done(false) else if parsed.value == 1 then Done(true) else Panic;
    }

    /** `toggle`: writes "0\n" after reading inhibited, "1\n" otherwise. */
    method Toggle(readOk: bool, writeOk: bool) returns (f: Fate<()>)
      modifies file
      ensures (f, file.content) == ToggleEffect(old(file.content), readOk, writeOk)
    {
      var st := Status(readOk);
      if st.Exit? {
        return Exit(st.code);
      } else if st.Panic? {
        return Panic;
      }
      var written := file.Write(if st.value then "0\n" else "1\n", writeOk);
      f := if written then Done(()) else Exit(1);
    }
  }

  /**
   * `main`: builds the touchpad once and toggles it once. Without a
   * touchpad it exits with status 1 and the file is not written.
   */
  method Run(scan: Option<seq<Device>>, file: FlagFile, readOk: bool, writeOk: bool) returns (f: Fate<()>)
    modifies file
    ensures var found := if scan.None? then None else Locate(scan.value);
            && (found.None? ==> f == Exit(1) && file.content == old(file.content))
            && (found.Some? ==> (f, file.content) == ToggleEffect(old(file.content), readOk, writeOk))
  {
    var tpd := LegacyTouchPad.New(scan, file);
    if !tpd.Done? {
      return Exit(1);
    }
    f := tpd.value.Toggle(readOk, writeOk);
  }
}

=== FILE: locator.dfy ===
/**
 * The search for the touchpad among the devices of the "input" subsystem
 * that libudev enumerates (`find_touchpad_sysfs`, present in the same form
 * in src/touchpad.rs and src/main.rs).
 */
module Locator {
  import opened Common
  import opened Paths

  /** One enumerated device: its syspath, when libudev reports one, and its udev properties. */
  datatype Device = Device(syspath: Option<OsStr>, properties: map<string, OsStr>)

  const TouchpadKey := "ID_INPUT_TOUCHPAD"
  const EventPrefix := "event"
  const SysRoot: OsStr := FromStr("/sys")

  /**
   * The device ends the whole search with `None`: it has no syspath, or
   * its syspath has no file name, or that name is not UTF-8 (the three
   * `?` operators inside the loop).
   */
  predicate Aborts(d: Device) {
    || d.syspath.None?
    || FileName(d.syspath.value).None?
    || ToStr(FileName(d.syspath.value).value).None?
  }

  /** The name of the device's event node, for a device that does not abort the search. */
  function NodeName(d: Device): string
    requires !Aborts(d)
  {
    ToStr(FileName(d.syspath.value).value).value
  }

  /** `property_value("ID_INPUT_TOUCHPAD").or(Some("0"))`: a missing property reads as "0". */
  function TouchpadProperty(d: Device): OsStr {
    if TouchpadKey in d.properties then d.properties[TouchpadKey] else FromStr("0")
  }

  /** The device is an event node of a touchpad: the one the search is for. */
  predicate IsTouchpadEvent(d: Device)
    requires !Aborts(d)
  {
    StartsWith(NodeName(d), EventPrefix) && TouchpadProperty(d) == FromStr("1")
  }

  /** The path the search returns for a device: `/sys` joined with its syspath. */
  function SysfsPath(d: Device): OsStr
    requires d.syspath.Some?
  {
    Join(SysRoot, d.syspath.value)
  }

  /** The result of the search over an enumeration, device by device. */
  function Locate(devices: seq<Device>): (r: Option<OsStr>)
    ensures r.Some? ==> exists i :: 0 <= i < |devices| && !Aborts(devices[i]) && IsTouchpadEvent(devices[i])
                                    && r.value == SysfsPath(devices[i])
  {
    if devices == [] then None
    else if Aborts(devices[0]) then None
    else if IsTouchpadEvent(devices[0]) then Some(SysfsPath(devices[0]))
    else
      var r := Locate(devices[1..]);
      assert r.Some? ==> exists i :: 0 <= i < |devices| && !Aborts(devices[i]) && IsTouchpadEvent(devices[i])
                                     && r.value == SysfsPath(devices[i]) by {
        if r.Some? {
          var i :| 0 <= i < |devices| - 1 && !Aborts(devices[1..][i]) && IsTouchpadEvent(devices[1..][i])
                   && r.value == SysfsPath(devices[1..][i]);
          assert devices[1..][i] == devices[i + 1];
        }
      }
      r
  }

  /**
   * `find_touchpad_sysfs`. `scan` is what creating the udev context and
   * enumerator, restricting it to "input" and scanning produce; `None`
   * when any of these steps fails.
   */
  method FindTouchpadSysfs(scan: Option<seq<Device>>) returns (r: Option<OsStr>)
    ensures r == if scan.None? then None else Locate(scan.value)
  {
    if scan.None? {
      return None;
    }
    var devices := scan.value;
    var i := 0;
    while i < |devices|
      invariant 0 <= i <= |devices|
      invariant Locate(devices) == Locate(devices[i..])
    {
      assert devices[i..][1..] == devices[i + 1..];
      var dev := devices[i];
      if dev.syspath.None? {
        return None;
      }
      var name := FileName(dev.syspath.value);
      if name.None? {
        return None;
      }
      var text := ToStr(name.value);
      if text.None? {
        return None;
      }
      if !StartsWith(text.value, EventPrefix) {
        i := i + 1;
        continue;
      }
      var flag := if TouchpadKey in dev.properties then dev.properties[TouchpadKey] else FromStr("0");
      if flag == FromStr("1") {
        return Some(Join(SysRoot, dev.syspath.value));
      }
      i := i + 1;
    }
    return None;
  }

  /** No device before index `i` ends the search or is a touchpad event node. */
  predicate PassedOver(devices: seq<Device>, i: int)
    requires 0 <= i <= |devices|
  {
    forall j :: 0 <= j < i ==> !Aborts(devices[j]) && !IsTouchpadEvent(devices[j])
  }

  /** Device `i` is the first touchpad event node, reached without an abort, and its sysfs path is `p`. */
  predicate FirstMatchAt(devices: seq<Device>, i: int, p: OsStr) {
    && 0 <= i < |devices|
    && !Aborts(devices[i]) && IsTouchpadEvent(devices[i]) && SysfsPath(devices[i]) == p
    && PassedOver(devices, i)
  }

  lemma {:induction false} LocateSound(devices: seq<Device>, p: OsStr)
    requires Locate(devices) == Some(p)
    ensures exists i :: FirstMatchAt(devices, i, p)
    decreases |devices|
  {
    if IsTouchpadEvent(devices[0]) {
      assert FirstMatchAt(devices, 0, p);
    } else {
      var tail := devices[1..];
      LocateSound(tail, p);
      var i :| FirstMatchAt(tail, i, p);
      assert devices[i + 1] == tail[i];
      forall j | 0 <= j < i + 1 ensures !Aborts(devices[j]) && !IsTouchpadEvent(devices[j]) {
        if j > 0 { assert devices[j] == tail[j - 1]; }
      }
      assert FirstMatchAt(devices, i + 1, p);
    }
  }

  lemma {:induction false} LocateComplete(devices: seq<Device>, i: int, p: OsStr)
    requires FirstMatchAt(devices, i, p)
    ensures Locate(devices) == Some(p)
    decreases i
  {
    if i > 0 {
      var tail := devices[1..];
      assert !Aborts(devices[0]) && !IsTouchpadEvent(devices[0]);
      assert tail[i - 1] == devices[i];
      forall j | 0 <= j < i - 1 ensures !Aborts(tail[j]) && !IsTouchpadEvent(tail[j]) {
        assert tail[j] == devices[j + 1];
      }
      assert FirstMatchAt(tail, i - 1, p);
      LocateComplete(tail, i - 1, p);
    }
  }

  /**
   * The search returns `p` exactly when some device is a touchpad event
   * node with sysfs path `p` and every device before it neither aborts the
   * search nor is a touchpad event node: the first match in enumeration
   * order wins.
   */
  lemma LocateFirstMatch(devices: seq<Device>, p: OsStr)
    ensures Locate(devices) == Some(p) <==> exists i :: FirstMatchAt(devices, i, p)
  {
    if Locate(devices) == Some(p) {
      LocateSound(devices, p);
    }
    if i :| FirstMatchAt(devices, i, p) {
      LocateComplete(devices, i, p);
    }
  }

  /** With no touchpad event node in the enumeration, the search finds nothing. */
  lemma {:induction false} NoTouchpadNoResult(devices: seq<Device>)
    requires forall i :: 0 <= i < |devices| && !Aborts(devices[i]) ==> !IsTouchpadEvent(devices[i])
    ensures Locate(devices) == None
    decreases |devices|
  {
    if devices != [] && !Aborts(devices[0]) {
      NoTouchpadNoResult(devices[1..]);
    }
  }

  /**
   * A device with no syspath, no file name or a non-UTF-8 file name that
   * comes before every touchpad ends the search with `None`, even when a
   * touchpad follows it.
   */
  lemma {:induction false} AbortBeforeMatch(devices: seq<Device>, k: nat)
    requires k < |devices| && Aborts(devices[k])
    requires forall j :: 0 <= j < k && !Aborts(devices[j]) ==> !IsTouchpadEvent(devices[j])
    ensures Locate(devices) == None
    decreases k
  {
    if k > 0 && !Aborts(devices[0]) {
      assert forall j :: 0 <= j < k - 1 && !Aborts(devices[1..][j]) ==> !IsTouchpadEvent(devices[1..][j]) by {
        forall j | 0 <= j < k - 1 && !Aborts(devices[1..][j]) ensures !IsTouchpadEvent(devices[1..][j]) {
          assert devices[1..][j] == devices[j + 1];
        }
      }
      AbortBeforeMatch(devices[1..], k - 1);
    }
  }

  /** A device whose `ID_INPUT_TOUCHPAD` is missing is never the touchpad. */
  lemma MissingPropertyNoMatch(d: Device)
    requires !Aborts(d) && TouchpadKey !in d.properties
    ensures !IsTouchpadEvent(d)
  {
    assert FromStr("0")[0] != FromStr("1")[0];
  }

  /** A device whose node name does not start with "event" is skipped even when it is a touchpad. */
  lemma NonEventNodeNoMatch(d: Device)
    requires !Aborts(d) && !StartsWith(NodeName(d), EventPrefix)
    requires TouchpadKey in d.properties && d.properties[TouchpadKey] == FromStr("1")
    ensures !IsTouchpadEvent(d)
  {
  }

  /** libudev syspaths are absolute, and joining an absolute path onto `/sys` yields the syspath itself. */
  lemma SysfsPathOfAbsolute(d: Device)
    requires d.syspath.Some? && IsAbsolute(d.syspath.value)
    ensures SysfsPath(d) == d.syspath.value
  {
  }

  const InhibitedRelative: OsStr := FromStr("device/inhibited")

  /** `dev_path.join("device/inhibited")`: the flag file of the device found at `device`. */
  function InhibitedPath(device: OsStr): OsStr {
    Join(device, InhibitedRelative)
  }

  /**
   * For an absolute syspath without a trailing `/`, the flag file is
   * `<syspath>/device/inhibited`, and its file name is `inhibited`.
   */
  lemma InhibitedPathOfDevice(d: Device)
    requires d.syspath.Some? && IsAbsolute(d.syspath.value)
    requires d.syspath.value[|d.syspath.value| - 1] != Slash
    ensures InhibitedPath(SysfsPath(d)) == d.syspath.value + FromStr("/device/inhibited")
    ensures FileName(InhibitedPath(SysfsPath(d))) == Some(FromStr("inhibited"))
  {
    var sp := d.syspath.value;
    assert [Slash] + InhibitedRelative == FromStr("/device/inhibited");
    assert sp + [Slash] + InhibitedRelative == sp + ([Slash] + InhibitedRelative);
    var dir := FromStr("device/");
    var name := FromStr("inhibited");
    assert InhibitedRelative == dir + name;
    assert Slash !in name;
    ComponentStartNoSlash(name);
    ComponentStartAfterSlash(dir, name);
    assert InhibitedRelative[7..] == name;
    assert FileName(InhibitedRelative) == Some(name);
    FileNameOfJoin(sp, InhibitedRelative);
  }
}

=== FILE: notify.dfy ===
/**
 * The desktop notification that reports the touchpad's state
 * (`send_notify`'s choice of message, and the command lines that
 * `notify::sudo_send` and `notify::pkexec_send` build in src/touchpad.rs).
 * Running the commands is not modelled: only the argument vectors are.
 */
module Notify {
  import opened Common
  import opened RustText

  /** "Touchpad disabled", sent when the flag reads inhibited. */
  const DisabledMessage := "触摸板已关闭"
  /** "Touchpad enabled", sent otherwise. */
  const EnabledMessage := "触摸板已开启"
  /** How long the notification stays up, in milliseconds. */
  const DurationMs: u32 := 3000

  /** A notification as dispatched: the command line run and the effective ids it ran under. */
  datatype Notice = Notice(argv: seq<string>, euid: u32, egid: u32)

  /** The message `send_notify` sends for the state it read. */
  function Message(inhibited: bool): (m: string)
    ensures m != [] && (m == DisabledMessage <==> inhibited)
    ensures !inhibited ==> m == EnabledMessage
  {
    assert DisabledMessage[4] != EnabledMessage[4];
    if inhibited then DisabledMessage else EnabledMessage
  }

  /** `env::var(key).unwrap_or_else(|_| default)`. */
  function EnvOr(env: Env, key: string, default: string): string {
    if key in env then env[key] else default
  }

  /** The `notify-send` invocation both senders share. */
  function NotifySendArgs(msg: string, ms: u32): seq<string> {
    ["notify-send", "-a", "TouchPad", msg, "-t", Decimal(ms as nat)]
  }

  /**
   * `sudo_send`: runs `notify-send` as `$SUDO_USER` (default "root") with
   * `DISPLAY` (default ":0") and the session bus of `$SUDO_UID` (default
   * "1000") set in its environment.
   */
  function SudoSendArgs(env: Env, msg: string, ms: u32): (argv: seq<string>)
    ensures |argv| == 12 && argv[..2] == ["sudo", "-u"] && argv[3] == "env"
    ensures argv[6..] == PkexecSendArgs(msg, ms)
  {
    var user := EnvOr(env, "SUDO_USER", "root");
    var uid := EnvOr(env, "SUDO_UID", "1000");
    var disp := EnvOr(env, "DISPLAY", ":0");
    var dbus := "/run/user/" + uid + "/bus";
    ["sudo", "-u", user, "env", "DISPLAY=" + disp, "DBUS_SESSION_BUS_ADDRESS=unix:path=" + dbus]
      + NotifySendArgs(msg, ms)
  }

  /** `pkexec_send`: runs `notify-send` directly, as the current process. */
  function PkexecSendArgs(msg: string, ms: u32): (argv: seq<string>)
    ensures |argv| == 6 && argv[0] == "notify-send" && argv[3] == msg
    ensures ParseU32(argv[5]) == Some(ms)
  {
    ParseDecimal(ms as nat);
    NotifySendArgs(msg, ms)
  }

  /** The two messages differ, so the notification tells the two states apart. */
  lemma MessageNamesState(inhibited: bool)
    ensures Message(inhibited) != Message(!inhibited)
  {
    assert DisabledMessage[4] != EnabledMessage[4];
  }

  /** With none of the variables set, `sudo_send` falls back to root, display ":0" and the bus of uid 1000. */
  lemma SudoSendDefaults(env: Env, msg: string, ms: u32)
    requires "SUDO_USER" !in env && "SUDO_UID" !in env && "DISPLAY" !in env
    ensures SudoSendArgs(env, msg, ms)[..6] ==
      ["sudo", "-u", "root", "env", "DISPLAY=:0", "DBUS_SESSION_BUS_ADDRESS=unix:path=/run/user/1000/bus"]
  {
    assert "DISPLAY=" + ":0" == "DISPLAY=:0";
    assert "/run/user/" + "1000" + "/bus" == "/run/user/1000/bus";
    assert "DBUS_SESSION_BUS_ADDRESS=unix:path=" + "/run/user/1000/bus"
        == "DBUS_SESSION_BUS_ADDRESS=unix:path=/run/user/1000/bus";
  }

  /** When the variables are set, their values are what `sudo` and `env` receive. */
  lemma SudoSendFromEnvironment(env: Env, msg: string, ms: u32)
    requires "SUDO_USER" in env && "SUDO_UID" in env && "DISPLAY" in env
    ensures var argv := SudoSendArgs(env, msg, ms);
            argv[2] == env["SUDO_USER"] && argv[4] == "DISPLAY=" + env["DISPLAY"]
            && argv[5] == "DBUS_SESSION_BUS_ADDRESS=unix:path=/run/user/" + env["SUDO_UID"] + "/bus"
  {
  }

  /**
   * Each variable falls back on its own: whichever of `SUDO_USER`,
   * `DISPLAY` and `SUDO_UID` is set is passed on, and each unset one is
   * replaced by its own default, whatever the others are.
   */
  lemma SudoSendEachVariable(env: Env, msg: string, ms: u32)
    ensures var argv := SudoSendArgs(env, msg, ms);
            && argv[2] == (if "SUDO_USER" in env then env["SUDO_USER"] else "root")
            && argv[4] == "DISPLAY=" + (if "DISPLAY" in env then env["DISPLAY"] else ":0")
            && argv[5] == "DBUS_SESSION_BUS_ADDRESS=unix:path=/run/user/"
                          + (if "SUDO_UID" in env then env["SUDO_UID"] else "1000") + "/bus"
  {
    var user := EnvOr(env, "SUDO_USER", "root");
    var disp := EnvOr(env, "DISPLAY", ":0");
    var dbus := "/run/user/" + EnvOr(env, "SUDO_UID", "1000") + "/bus";
    var head := ["sudo", "-u", user, "env", "DISPLAY=" + disp, "DBUS_SESSION_BUS_ADDRESS=unix:path=" + dbus];
    assert SudoSendArgs(env, msg, ms) == head + NotifySendArgs(msg, ms);
    assert SudoSendArgs(env, msg, ms)[5] == head[5];
  }

  /**
   * Both senders run the same `notify-send` command: the message as one
   * argument and the duration in a form that reads back as the same number.
   */
  lemma SendersAgree(env: Env, msg: string, ms: u32)
    ensures SudoSendArgs(env, msg, ms)[6..] == PkexecSendArgs(msg, ms)
    ensures PkexecSendArgs(msg, ms)[3] == msg
    ensures ParseU32(PkexecSendArgs(msg, ms)[5]) == Some(ms)
  {
    ParseDecimal(ms as nat);
  }
}

=== FILE: parse.dfy ===
/**
 * `parse_args` (src/parse.rs): from the command line, the caller's
 * identity, the environment and the user database, decide how the
 * program runs.
 */
module Parse {
  import opened Common
  import opened RustText

  /** `Permissions`: the three ways to carry on, each with the ordinary user to act for. */
  datatype Permissions =
    | Rooted(uid: u32, gid: u32)          // started as root (through sudo) with a user name
    | PkexecNeedRoot(uid: u32, gid: u32)  // not root: must re-run itself through pkexec
    | PkexecRooted(uid: u32, gid: u32)    // the re-run under pkexec, user taken from the environment

  /**
   * How `parse_args` ends: it returns a `Permissions`, or prints the usage
   * for a program name and exits with status 2, or exits with a status, or
   * panics.
   */
  datatype Outcome =
    | Granted(perm: Permissions)
    | Help(program: string)
    | Fail(code: int)
    | Panicked

  /** The status the process ends with, when `parse_args` ends it (Rust exits with 101 on a panic). */
  function ExitStatus(o: Outcome): Option<int> {
    match o
    case Granted(_) => None
    case Help(_) => Some(2)
    case Fail(code) => Some(code)
    case Panicked => Some(101)
  }

  /** The user database: user name to (uid, primary gid). */
  type UserDb = map<string, (u32, u32)>

  const DefaultProgramName := "toggle_touchpad"

  /** The program name the usage shows: `args[0]`, or "toggle_touchpad" when there is none. */
  function ProgramName(args: seq<string>): (name: string)
    ensures args != [] ==> name == args[0]
    ensures args == [] ==> name == DefaultProgramName
  {
    if args == [] then DefaultProgramName else args[0]
  }

  /** `user::user_exists`. */
  predicate UserExists(users: UserDb, name: string) {
    name in users
  }

  /** `user::get_uid_gid`. */
  function LookupIds(users: UserDb, name: string): Option<(u32, u32)> {
    if name in users then Some(users[name]) else None
  }

  /** `env::var(key)` parsed as a `u32`; `None` where the source's `unwrap` panics. */
  function EnvId(env: Env, key: string): Option<u32> {
    if key in env then ParseU32(env[key]) else None
  }

  predicate IsHelpFlag(a: string) {
    a == "--help" || a == "-h"
  }

  predicate IsGetEnvFlag(a: string) {
    a == "-e" || a == "--get-env"
  }

  /**
   * `parse_args`. The caller is root when its uid is 0; `currentUid` and
   * `currentGid` are what `get_current_guid` reports.
   */
  function ParseArgs(args: seq<string>, env: Env, users: UserDb, currentUid: u32, currentGid: u32): (o: Outcome)
    ensures o.Fail? ==> o.code == 2
    ensures o.Help? ==> |args| >= 2 && IsHelpFlag(args[1]) && o.program == args[0]
    ensures o.Granted? && o.perm.PkexecRooted? ==> |args| >= 2 && IsGetEnvFlag(args[1])
    ensures o.Granted? && o.perm.Rooted? ==> |args| == 2 && args[1] in users && o.perm == Rooted(users[args[1]].0, users[args[1]].1)
  {
    var isRoot := currentUid == 0;
    if |args| < 2 then
      if isRoot then Fail(2) else Granted(PkexecNeedRoot(currentUid, currentGid))
    else if IsHelpFlag(args[1]) then
      Help(ProgramName(args))
    else if IsGetEnvFlag(args[1]) then
      match (EnvId(env, "TPD_UID"), EnvId(env, "TPD_GID"))
      case (Some(uid), Some(gid)) => Granted(PkexecRooted(uid, gid))
      case _ => Panicked
    else if |args| >= 3 then
      Fail(2)
    else if !UserExists(users, args[1]) then
      Fail(2)
    else
      match LookupIds(users, args[1])
      case None => Fail(2)
      case Some((uid, gid)) =>
        if isRoot then Granted(Rooted(uid, gid)) else Granted(PkexecNeedRoot(uid, gid))
  }

  /**
   * `--help` or `-h` as the first argument prints the usage for `args[0]`
   * and exits with status 2, whoever runs it and whatever follows.
   */
  lemma HelpExitsTwo(args: seq<string>, env: Env, users: UserDb, uid: u32, gid: u32)
    requires |args| >= 2 && IsHelpFlag(args[1])
    ensures ParseArgs(args, env, users, uid, gid) == Help(args[0])
    ensures ExitStatus(ParseArgs(args, env, users, uid, gid)) == Some(2)
  {
  }

  /**
   * The re-run under pkexec reads back the ids its parent passed in
   * `TPD_UID` and `TPD_GID` as decimal text, whoever runs it and whatever
   * follows the flag.
   */
  lemma GetEnvReadsIds(args: seq<string>, env: Env, users: UserDb, uid: u32, gid: u32, tUid: u32, tGid: u32)
    requires |args| >= 2 && IsGetEnvFlag(args[1])
    requires "TPD_UID" in env && env["TPD_UID"] == Decimal(tUid as nat)
    requires "TPD_GID" in env && env["TPD_GID"] == Decimal(tGid as nat)
    ensures ParseArgs(args, env, users, uid, gid) == Granted(PkexecRooted(tUid, tGid))
  {
    ParseDecimal(tUid as nat);
    ParseDecimal(tGid as nat);
  }

  /**
   * Whatever spelling `parse::<u32>` accepts in `TPD_UID` and `TPD_GID`
   * (a `+`, leading zeros) is what the re-run uses.
   */
  lemma GetEnvAnySpelling(args: seq<string>, env: Env, users: UserDb, uid: u32, gid: u32, tUid: u32, tGid: u32)
    requires |args| >= 2 && IsGetEnvFlag(args[1])
    requires EnvId(env, "TPD_UID") == Some(tUid) && EnvId(env, "TPD_GID") == Some(tGid)
    ensures ParseArgs(args, env, users, uid, gid) == Granted(PkexecRooted(tUid, tGid))
  {
  }

  /** A missing or malformed `TPD_UID` or `TPD_GID` makes the re-run panic. */
  lemma GetEnvPanics(args: seq<string>, env: Env, users: UserDb, uid: u32, gid: u32)
    requires |args| >= 2 && IsGetEnvFlag(args[1])
    requires EnvId(env, "TPD_UID").None? || EnvId(env, "TPD_GID").None?
    ensures ParseArgs(args, env, users, uid, gid) == Panicked
  {
  }

  /** A user name followed by more arguments exits with status 2 before any user is looked up. */
  lemma ExtraArgumentsExit(args: seq<string>, env: Env, users: UserDb, uid: u32, gid: u32)
    requires |args| >= 3 && !IsHelpFlag(args[1]) && !IsGetEnvFlag(args[1])
    ensures ParseArgs(args, env, users, uid, gid) == Fail(2)
    ensures forall other: UserDb :: ParseArgs(args, env, other, uid, gid) == Fail(2)
  {
  }

  /** An unknown user name exits with status 2. */
  lemma UnknownUserExits(args: seq<string>, env: Env, users: UserDb, uid: u32, gid: u32)
    requires |args| == 2 && !IsHelpFlag(args[1]) && !IsGetEnvFlag(args[1])
    requires args[1] !in users
    ensures ParseArgs(args, env, users, uid, gid) == Fail(2)
  {
  }

  /**
   * A known user name acts for that user: `Rooted` when run as root,
   * `PkexecNeedRoot` otherwise.
   */
  lemma KnownUserGranted(args: seq<string>, env: Env, users: UserDb, uid: u32, gid: u32)
    requires |args| == 2 && !IsHelpFlag(args[1]) && !IsGetEnvFlag(args[1])
    requires args[1] in users
    ensures var (u, g) := users[args[1]];
            ParseArgs(args, env, users, uid, gid) == Granted(if uid == 0 then Rooted(u, g) else PkexecNeedRoot(u, g))
  {
  }

  /** Without arguments, root exits with status 2 and anyone else asks for pkexec as themself. */
  lemma NoArgumentsOutcome(args: seq<string>, env: Env, users: UserDb, uid: u32, gid: u32)
    requires |args| <= 1
    ensures ParseArgs(args, env, users, uid, gid) == if uid == 0 then Fail(2) else Granted(PkexecNeedRoot(uid, gid))
  {
  }

  /**
   * `Rooted` comes only from a root caller and `PkexecNeedRoot` only from
   * another one; a panic comes only from the re-run flag.
   */
  lemma OutcomeMatchesCaller(args: seq<string>, env: Env, users: UserDb, uid: u32, gid: u32)
    ensures ParseArgs(args, env, users, uid, gid).Granted? && ParseArgs(args, env, users, uid, gid).perm.Rooted? ==> uid == 0
    ensures ParseArgs(args, env, users, uid, gid).Granted? && ParseArgs(args, env, users, uid, gid).perm.PkexecNeedRoot? ==> uid != 0
    ensures ParseArgs(args, env, users, uid, gid) == Panicked ==> |args| >= 2 && IsGetEnvFlag(args[1])
  {
  }
}

=== FILE: paths.dfy ===
/**
 * Unix paths as Rust's `OsStr`/`Path` see them: a sequence of units that
 * need not be valid UTF-8, split into components at `/`.
 */
module Paths {
  import opened Common

  /** A byte at or above 0x80: only such bytes can fall outside valid UTF-8, and none of them is `/`. */
  type HighByte = b: bv8 | 0x80 <= b witness 0x80

  /**
   * One unit of an `OsStr`: a character of valid UTF-8 text, or a byte
   * kept raw. Raw units stand for bytes outside any valid UTF-8 sequence;
   * the type does not rule out raw bytes that would spell a character.
   */
  datatype OsChar = Text(c: char) | Raw(b: HighByte)

  type OsStr = seq<OsChar>

  const Slash: OsChar := Text('/')

  /** `OsStr::new` of a Rust string. */
  function FromStr(s: string): (r: OsStr)
    ensures |r| == |s| && forall i :: 0 <= i < |s| ==> r[i] == Text(s[i])
  {
    seq(|s|, i requires 0 <= i < |s| => Text(s[i]))
  }

  /** `OsStr::to_str`: the text, when every unit is valid UTF-8. */
  function ToStr(p: OsStr): (r: Option<string>)
    ensures r.Some? <==> forall i :: 0 <= i < |p| ==> p[i].Text?
    ensures r.Some? ==> FromStr(r.value) == p
  {
    if forall i :: 0 <= i < |p| ==> p[i].Text? then Some(seq(|p|, i requires 0 <= i < |p| => p[i].c))
    else None
  }

  lemma ToStrFromStr(s: string)
    ensures ToStr(FromStr(s)) == Some(s)
  {
    var p := FromStr(s);
    assert forall i :: 0 <= i < |p| ==> p[i].Text?;
    var t := seq(|p|, i requires 0 <= i < |p| => p[i].c);
    assert ToStr(p) == Some(t);
    assert t == s;
  }

  predicate IsAbsolute(p: OsStr) {
    p != [] && p[0] == Slash
  }

  /** The index just past the last `/` of `p`, or 0 when there is none: where the last component starts. */
  function ComponentStart(p: OsStr): (k: nat)
    ensures k <= |p|
    ensures Slash !in p[k..]
    ensures k > 0 ==> p[k - 1] == Slash
  {
    if p == [] then 0
    else if p[|p| - 1] == Slash then |p|
    else
      var k := ComponentStart(p[..|p| - 1]);
      assert p[k..] == p[..|p| - 1][k..] + [p[|p| - 1]];
      k
  }

  /**
   * `Path::file_name`: the last component when it is a normal one.
   * Trailing `/` and `.` components are not components of their own; a
   * path that ends in `..`, that is `/`, or that is empty has no file name.
   */
  function FileName(p: OsStr): (r: Option<OsStr>)
    ensures r.Some? ==> r.value != [] && Slash !in r.value
                        && r.value != [Text('.')] && r.value != [Text('.'), Text('.')]
    decreases |p|
  {
    if p == [] then None
    else if p[|p| - 1] == Slash then FileName(p[..|p| - 1])
    else
      var k := ComponentStart(p);
      var last := p[k..];
      if last == [Text('.')] then FileName(p[..k])
      else if last == [Text('.'), Text('.')] then None
      else Some(last)
  }

  /**
   * `Path::join` on Unix: an absolute `q` replaces `p` altogether;
   * otherwise `q` is appended, after a `/` when `p` is not empty and does
   * not already end in one.
   */
  function Join(p: OsStr, q: OsStr): (r: OsStr)
    ensures IsAbsolute(q) ==> r == q
    ensures !IsAbsolute(q) ==> |r| >= |p| + |q| && r[..|p|] == p && r[|r| - |q|..] == q
    ensures !IsAbsolute(q) && p != [] && p[|p| - 1] != Slash ==> |r| == |p| + 1 + |q| && r[|p|] == Slash
    ensures !IsAbsolute(q) && (p == [] || p[|p| - 1] == Slash) ==> r == p + q
  {
    if IsAbsolute(q) then q
    else if p != [] && p[|p| - 1] != Slash then p + [Slash] + q
    else p + q
  }

  /** `s.starts_with(prefix)` on text. */
  predicate StartsWith(s: string, prefix: string) {
    |prefix| <= |s| && s[..|prefix|] == prefix
  }

  lemma {:induction false} ComponentStartAfterSlash(p: OsStr, q: OsStr)
    requires p != [] && p[|p| - 1] == Slash
    ensures ComponentStart(p + q) == |p| + ComponentStart(q)
    decreases |q|
  {
    if q == [] {
      assert p + q == p;
    } else {
      assert (p + q)[..|p + q| - 1] == p + q[..|q| - 1];
      if q[|q| - 1] != Slash {
        ComponentStartAfterSlash(p, q[..|q| - 1]);
      }
    }
  }

  lemma {:induction false} ComponentStartNoSlash(q: OsStr)
    requires Slash !in q
    ensures ComponentStart(q) == 0
    decreases |q|
  {
    if q != [] {
      assert Slash !in q[..|q| - 1];
      ComponentStartNoSlash(q[..|q| - 1]);
    }
  }

  /**
   * Joining a relative path that has a file name keeps that file name:
   * the last component of the joined path comes from `q`.
   */
  lemma {:induction false} FileNameOfJoin(p: OsStr, q: OsStr)
    requires !IsAbsolute(q) && FileName(q).Some?
    ensures FileName(Join(p, q)) == FileName(q)
    decreases |q|
  {
    var base := if p != [] && p[|p| - 1] != Slash then p + [Slash] else p;
    assert Join(p, q) == base + q;
    if base == [] {
      assert base + q == q;
    } else {
      FileNameUnderDirectory(base, q);
    }
  }

  lemma {:induction false} FileNameUnderDirectory(base: OsStr, q: OsStr)
    requires base != [] && base[|base| - 1] == Slash
    requires FileName(q).Some?
    ensures FileName(base + q) == FileName(q)
    decreases |q|
  {
    var j := base + q;
    assert q != [];
    assert j[..|j| - 1] == base + q[..|q| - 1];
    if q[|q| - 1] == Slash {
      FileNameUnderDirectory(base, q[..|q| - 1]);
    } else {
      var k := ComponentStart(q);
      ComponentStartAfterSlash(base, q);
      assert j[|base| + k..] == q[k..];
      if q[k..] == [Text('.')] {
        assert j[..|base| + k] == base + q[..k];
        FileNameUnderDirectory(base, q[..k]);
      }
    }
  }

  /**
   * A single normal component is its own file name, and it stays the file
   * name under any directory: `file_name` gives the last component.
   */
  lemma FileNameOfName(dir: OsStr, name: OsStr)
    requires name != [] && Slash !in name && name != [Text('.')] && name != [Text('.'), Text('.')]
    requires dir != [] && dir[|dir| - 1] == Slash
    ensures FileName(name) == Some(name)
    ensures FileName(dir + name) == Some(name)
  {
    ComponentStartNoSlash(name);
    FileNameUnderDirectory(dir, name);
  }

  /**
   * A path that ends in `..` has no file name, whatever directory the
   * `..` sits in.
   */
  lemma FileNameOfParent(dir: OsStr)
    requires dir == [] || dir[|dir| - 1] == Slash
    ensures FileName(dir + [Text('.'), Text('.')]) == None
  {
    var dots := [Text('.'), Text('.')];
    ComponentStartNoSlash(dots);
    if dir != [] {
      ComponentStartAfterSlash(dir, dots);
    }
    assert (dir + dots)[|dir|..] == dots;
  }

  /** The root `/`, any run of slashes, and the empty path have no file name. */
  lemma {:induction false} FileNameOfSlashes(p: OsStr)
    requires forall i :: 0 <= i < |p| ==> p[i] == Slash
    ensures FileName(p) == None
    decreases |p|
  {
    if p != [] {
      FileNameOfSlashes(p[..|p| - 1]);
    }
  }

  /**
   * A trailing `/` or `/.` does not change the file name of any path:
   * `a/b/` and `a/b/.` both name `b`, as `a/b` does.
   */
  lemma FileNameIgnoresCurrentDir(p: OsStr)
    ensures FileName(p + [Slash]) == FileName(p)
    ensures FileName(p + [Slash, Text('.')]) == FileName(p)
  {
    var q := p + [Slash];
    assert q[..|p|] == p;
    var dot := [Text('.')];
    ComponentStartNoSlash(dot);
    ComponentStartAfterSlash(q, dot);
    assert q + dot == p + [Slash, Text('.')];
    assert (q + dot)[|q|..] == dot;
    assert (q + dot)[..|q|] == q;
  }
}

=== FILE: permguard.dfy ===
/**
 * `perm_guard` (src/lib.rs): a scoped drop of the effective user and group
 * ids to an ordinary user, restored when the guard is dropped, and the
 * irreversible `become_user`.
 *
 * Whether the kernel grants each set-id call is an input of the call: the
 * model does not decide which identities may switch to which.
 */
module PermGuard {
  import opened Common

  /** A set-id system call, as issued, with its argument. */
  datatype SetIdCall =
    | SetEgid(gid: u32)
    | SetEuid(uid: u32)
    | SetResgid(rgid: u32, egid: u32, sgid: u32)
    | SetResuid(ruid: u32, euid: u32, suid: u32)

  /** The identity of the running process: real, effective and saved user and group ids. */
  class Process {
    var ruid: u32
    var euid: u32
    var suid: u32
    var rgid: u32
    var egid: u32
    var sgid: u32
    /** The set-id calls issued so far, in order. */
    ghost var calls: seq<SetIdCall>

    constructor (ruid: u32, euid: u32, suid: u32, rgid: u32, egid: u32, sgid: u32)
      ensures this.ruid == ruid && this.euid == euid && this.suid == suid
      ensures this.rgid == rgid && this.egid == egid && this.sgid == sgid
      ensures calls == []
    {
      this.ruid, this.euid, this.suid := ruid, euid, suid;
      this.rgid, this.egid, this.sgid := rgid, egid, sgid;
      calls := [];
    }

    /** `setegid`: changes only the effective group id, when granted. */
    method SetEffectiveGid(gid: u32, granted: bool) returns (ok: bool)
      modifies this
      ensures ok == granted
      ensures egid == (if granted then gid else old(egid))
      ensures ruid == old(ruid) && euid == old(euid) && suid == old(suid)
      ensures rgid == old(rgid) && sgid == old(sgid)
      ensures calls == old(calls) + [SetEgid(gid)]
    {
      ok := granted;
      if granted {
        egid := gid;
      }
      calls := calls + [SetEgid(gid)];
    }

    /** `seteuid`: changes only the effective user id, when granted. */
    method SetEffectiveUid(uid: u32, granted: bool) returns (ok: bool)
      modifies this
      ensures ok == granted
      ensures euid == (if granted then uid else old(euid))
      ensures ruid == old(ruid) && suid == old(suid)
      ensures rgid == old(rgid) && egid == old(egid) && sgid == old(sgid)
      ensures calls == old(calls) + [SetEuid(uid)]
    {
      ok := granted;
      if granted {
        euid := uid;
      }
      calls := calls + [SetEuid(uid)];
    }

    /** `setresgid`: sets all three group ids at once, or none of them. */
    method SetAllGids(r: u32, e: u32, s: u32, granted: bool) returns (ok: bool)
      modifies this
      ensures ok == granted
      ensures (rgid, egid, sgid) == if granted then (r, e, s) else (old(rgid), old(egid), old(sgid))
      ensures ruid == old(ruid) && euid == old(euid) && suid == old(suid)
      ensures calls == old(calls) + [SetResgid(r, e, s)]
    {
      ok := granted;
      if granted {
        rgid, egid, sgid := r, e, s;
      }
      calls := calls + [SetResgid(r, e, s)];
    }

    /** `setresuid`: sets all three user ids at once, or none of them. */
    method SetAllUids(r: u32, e: u32, s: u32, granted: bool) returns (ok: bool)
      modifies this
      ensures ok == granted
      ensures (ruid, euid, suid) == if granted then (r, e, s) else (old(ruid), old(euid), old(suid))
      ensures rgid == old(rgid) && egid == old(egid) && sgid == old(sgid)
      ensures calls == old(calls) + [SetResuid(r, e, s)]
    {
      ok := granted;
      if granted {
        ruid, euid, suid := r, e, s;
      }
      calls := calls + [SetResuid(r, e, s)];
    }
  }

  /** `PrivDropGuard`: the effective ids to restore when the guard is dropped. */
  datatype Guard = Guard(prevUid: u32, prevGid: u32)

  /**
   * `nix::Result`: success, or an error. nix reports only an `Errno`; the
   * model records instead which set-id call failed, which the order of the
   * calls determines.
   */
  datatype SysResult<+T> = Ok(value: T) | Err(failed: SetIdCall)

  /**
   * `PrivDropGuard::to_user`: records the effective ids, then sets the
   * effective group id and after it the effective user id, returning at
   * the first failure. When `seteuid` fails the effective group id has
   * already changed and no guard exists to restore it.
   */
  method ToUser(p: Process, uid: u32, gid: u32, egidGranted: bool, euidGranted: bool) returns (r: SysResult<Guard>)
    modifies p
    ensures r.Ok? <==> egidGranted && euidGranted
    ensures r.Ok? ==> r.value == Guard(old(p.euid), old(p.egid)) && p.euid == uid && p.egid == gid
    ensures !egidGranted ==> r == Err(SetEgid(gid)) && p.euid == old(p.euid) && p.egid == old(p.egid)
    ensures egidGranted && !euidGranted ==> r == Err(SetEuid(uid)) && p.euid == old(p.euid) && p.egid == gid
    ensures p.ruid == old(p.ruid) && p.suid == old(p.suid) && p.rgid == old(p.rgid) && p.sgid == old(p.sgid)
    ensures p.calls == old(p.calls) + [SetEgid(gid)] + (if egidGranted then [SetEuid(uid)] else [])
  {
    var prevUid := p.euid;
    var prevGid := p.egid;
    var ok := p.SetEffectiveGid(gid, egidGranted);
    if !ok {
      return Err(SetEgid(gid));
    }
    ok := p.SetEffectiveUid(uid, euidGranted);
    if !ok {
      return Err(SetEuid(uid));
    }
    r := Ok(Guard(prevUid, prevGid));
  }

  /**
   * `Drop for PrivDropGuard`: sets the effective user id back first, then
   * the effective group id, and ignores the failure of either.
   */
  method Drop(p: Process, g: Guard, euidGranted: bool, egidGranted: bool)
    modifies p
    ensures p.euid == (if euidGranted then g.prevUid else old(p.euid))
    ensures p.egid == (if egidGranted then g.prevGid else old(p.egid))
    ensures p.ruid == old(p.ruid) && p.suid == old(p.suid) && p.rgid == old(p.rgid) && p.sgid == old(p.sgid)
    ensures p.calls == old(p.calls) + [SetEuid(g.prevUid), SetEgid(g.prevGid)]
  {
    var _ := p.SetEffectiveUid(g.prevUid, euidGranted);
    var _ := p.SetEffectiveGid(g.prevGid, egidGranted);
  }

  /**
   * A guard's whole life with every set-id call granted: while it is held
   * the process acts as `uid`/`gid`; once it is dropped the effective ids
   * are those before `to_user`, and the real and saved ids never change.
   */
  method WithUser(p: Process, uid: u32, gid: u32) returns (heldUid: u32, heldGid: u32)
    modifies p
    ensures heldUid == uid && heldGid == gid
    ensures p.euid == old(p.euid) && p.egid == old(p.egid)
    ensures p.ruid == old(p.ruid) && p.suid == old(p.suid) && p.rgid == old(p.rgid) && p.sgid == old(p.sgid)
    ensures p.calls == old(p.calls) + [SetEgid(gid), SetEuid(uid), SetEuid(old(p.euid)), SetEgid(old(p.egid))]
  {
    var g := ToUser(p, uid, gid, true, true);
    heldUid, heldGid := p.euid, p.egid;
    Drop(p, g.value, true, true);
  }

  /**
   * `become_user`: sets real, effective and saved group ids to `gid`,
   * then, if that succeeded, real, effective and saved user ids to `uid`.
   * Nothing undoes it.
   */
  method BecomeUser(p: Process, uid: u32, gid: u32, gidsGranted: bool, uidsGranted: bool) returns (r: SysResult<()>)
    modifies p
    ensures r.Ok? <==> gidsGranted && uidsGranted
    ensures !gidsGranted ==> r == Err(SetResgid(gid, gid, gid))
    ensures gidsGranted && !uidsGranted ==> r == Err(SetResuid(uid, uid, uid))
    ensures gidsGranted ==> p.rgid == gid && p.egid == gid && p.sgid == gid
    ensures !gidsGranted ==> p.rgid == old(p.rgid) && p.egid == old(p.egid) && p.sgid == old(p.sgid)
    ensures gidsGranted && uidsGranted ==> p.ruid == uid && p.euid == uid && p.suid == uid
    ensures !(gidsGranted && uidsGranted) ==> p.ruid == old(p.ruid) && p.euid == old(p.euid) && p.suid == old(p.suid)
    ensures p.calls == old(p.calls) + [SetResgid(gid, gid, gid)] + (if gidsGranted then [SetResuid(uid, uid, uid)] else [])
  {
    var ok := p.SetAllGids(gid, gid, gid, gidsGranted);
    if !ok {
      return Err(SetResgid(gid, gid, gid));
    }
    ok := p.SetAllUids(uid, uid, uid, uidsGranted);
    if !ok {
      return Err(SetResuid(uid, uid, uid));
    }
    r := Ok(());
  }
}

=== FILE: text.dfy ===
/**
 * The two pieces of Rust's standard library the program relies on to read
 * numbers out of text: `str::trim` and `u32::from_str` (what
 * `s.parse::<u32>()` calls), and, as their partner, `u32::to_string`.
 */
module RustText {
  import opened Common

  /** `char::is_whitespace`: the characters with the Unicode White_Space property. */
  predicate IsWhitespace(c: char) {
    || ('\t' <= c <= '\r')
    || c == ' ' || c == '\U{85}' || c == '\U{A0}' || c == '\U{1680}'
    || ('\U{2000}' <= c <= '\U{200A}')
    || c == '\U{2028}' || c == '\U{2029}' || c == '\U{202F}' || c == '\U{205F}' || c == '\U{3000}'
  }

  predicate AllWhitespace(s: string) {
    forall i :: 0 <= i < |s| ==> IsWhitespace(s[i])
  }

  /** Scanning forward from `i`: the index of the first character that is not whitespace, or `|s|`. */
  function SkipWhitespace(s: string, i: nat): (k: nat)
    requires i <= |s|
    ensures i <= k <= |s|
    ensures forall j :: i <= j < k ==> IsWhitespace(s[j])
    ensures k == |s| || !IsWhitespace(s[k])
    decreases |s| - i
  {
    if i < |s| && IsWhitespace(s[i]) then SkipWhitespace(s, i + 1) else i
  }

  /** Scanning backward from `j` down to `lo`: the end of the last character that is not whitespace, or `lo`. */
  function BackWhitespace(s: string, lo: nat, j: nat): (e: nat)
    requires lo <= j <= |s|
    ensures lo <= e <= j
    ensures forall m :: e <= m < j ==> IsWhitespace(s[m])
    ensures e == lo || !IsWhitespace(s[e - 1])
    decreases j - lo
  {
    if lo < j && IsWhitespace(s[j - 1]) then BackWhitespace(s, lo, j - 1) else j
  }

  /** `s` is `r` at offset `k`, with only whitespace before and after it. */
  predicate WhitespaceAround(s: string, r: string, k: nat) {
    && k + |r| <= |s|
    && r == s[k..k + |r|]
    && AllWhitespace(s[..k])
    && AllWhitespace(s[k + |r|..])
  }

  /**
   * `str::trim`: the longest slice of `s` that neither starts nor ends with
   * whitespace, found by scanning from the front for the first character
   * that is not whitespace and from the back for the last one.
   */
  function Trim(s: string): (r: string)
    ensures |r| <= |s|
    ensures exists k :: WhitespaceAround(s, r, k)
    ensures r == [] || (!IsWhitespace(r[0]) && !IsWhitespace(r[|r| - 1]))
  {
    var start := SkipWhitespace(s, 0);
    var end := BackWhitespace(s, start, |s|);
    var r := s[start..end];
    assert WhitespaceAround(s, r, start) by {
      assert r == s[start..start + |r|];
      assert AllWhitespace(s[..start]);
      assert AllWhitespace(s[start + |r|..]);
    }
    r
  }

  /** The forward scan stops exactly at the first character that is not whitespace. */
  lemma SkipWhitespaceAt(s: string, i: nat, k: nat)
    requires i <= k <= |s|
    requires forall j :: i <= j < k ==> IsWhitespace(s[j])
    requires k == |s| || !IsWhitespace(s[k])
    ensures SkipWhitespace(s, i) == k
  {
  }

  /** The backward scan stops exactly after the last character that is not whitespace. */
  lemma BackWhitespaceAt(s: string, lo: nat, j: nat, e: nat)
    requires lo <= e <= j <= |s|
    requires forall m :: e <= m < j ==> IsWhitespace(s[m])
    requires e == lo || !IsWhitespace(s[e - 1])
    ensures BackWhitespace(s, lo, j) == e
  {
  }

  /** Whitespace around a text that neither starts nor ends with whitespace is exactly what `trim` removes. */
  lemma TrimPadded(pre: string, core: string, post: string)
    requires AllWhitespace(pre) && AllWhitespace(post)
    requires core != [] && !IsWhitespace(core[0]) && !IsWhitespace(core[|core| - 1])
    ensures Trim(pre + core + post) == core
  {
    var s := pre + core + post;
    var start, end := |pre|, |pre| + |core|;
    assert s[start] == core[0];
    assert forall j :: 0 <= j < start ==> s[j] == pre[j];
    SkipWhitespaceAt(s, 0, start);
    assert s[end - 1] == core[|core| - 1];
    assert forall m :: end <= m < |s| ==> s[m] == post[m - end];
    BackWhitespaceAt(s, start, |s|, end);
    assert s[start..end] == core;
  }

  /** Text made only of whitespace trims to nothing. */
  lemma TrimWhitespace(s: string)
    requires AllWhitespace(s)
    ensures Trim(s) == []
  {
    SkipWhitespaceAt(s, 0, |s|);
  }

  predicate IsDigit(c: char) {
    '0' <= c <= '9'
  }

  predicate AllDigits(s: string) {
    forall i :: 0 <= i < |s| ==> IsDigit(s[i])
  }

  /** The number a string of decimal digits denotes, most significant digit first. */
  function DigitsValue(s: string): nat
    requires AllDigits(s)
  {
    if s == [] then 0 else 10 * DigitsValue(s[..|s| - 1]) + (s[|s| - 1] as int - '0' as int)
  }

  /**
   * `u32::from_str`: an optional `+` (alone it is an error), then at least
   * one ASCII digit and nothing else, denoting a value below 2^32. A `-`
   * sign, whitespace or any other character is an error; leading zeros are
   * allowed.
   */
  function ParseU32(s: string): (r: Option<u32>)
    ensures r.Some? ==> s != [] && IsDigit(s[|s| - 1]) && (IsDigit(s[0]) || s[0] == '+')
  {
    var digits := if s != [] && s[0] == '+' then s[1..] else s;
    if digits == [] || !AllDigits(digits) then None
    else if DigitsValue(digits) < 0x1_0000_0000 then Some(DigitsValue(digits) as u32)
    else None
  }

  function DigitChar(d: nat): (c: char)
    requires d < 10
    ensures IsDigit(c) && c as int - '0' as int == d
  {
    ('0' as int + d) as char
  }

  /** `to_string` of a natural number: its decimal digits without leading zeros. */
  function Decimal(n: nat): (r: string)
    ensures r != [] && AllDigits(r) && DigitsValue(r) == n
    ensures |r| > 1 ==> r[0] != '0'
  {
    if n < 10 then [DigitChar(n)]
    else
      var r := Decimal(n / 10) + [DigitChar(n % 10)];
      assert r[..|r| - 1] == Decimal(n / 10);
      r
  }

  /** Parsing what `to_string` prints gives the number back, and a value beyond `u32::MAX` is refused. */
  lemma ParseDecimal(n: nat)
    ensures ParseU32(Decimal(n)) == if n < 0x1_0000_0000 then Some(n as u32) else None
  {
    var d := Decimal(n);
    assert !IsDigit('+');
    assert d[0] != '+';
  }

  /** A leading `+` in front of a number is accepted and changes nothing. */
  lemma ParsePlusSign(s: string)
    requires s != [] && s[0] != '+'
    ensures ParseU32(['+'] + s) == ParseU32(s)
  {
    assert (['+'] + s)[1..] == s;
  }

  lemma {:induction false} LeadingZeroValue(s: string)
    requires AllDigits(s)
    ensures AllDigits(['0'] + s) && DigitsValue(['0'] + s) == DigitsValue(s)
    decreases |s|
  {
    if s != [] {
      var t := ['0'] + s;
      assert t[..|t| - 1] == ['0'] + s[..|s| - 1];
      LeadingZeroValue(s[..|s| - 1]);
    }
  }

  function Zeros(k: nat): (z: string)
    ensures |z| == k && forall i :: 0 <= i < k ==> z[i] == '0'
  {
    if k == 0 then [] else ['0'] + Zeros(k - 1)
  }

  lemma {:induction false} LeadingZerosValue(k: nat, s: string)
    requires AllDigits(s)
    ensures AllDigits(Zeros(k) + s) && DigitsValue(Zeros(k) + s) == DigitsValue(s)
    decreases k
  {
    if k > 0 {
      LeadingZerosValue(k - 1, s);
      var rest := Zeros(k - 1) + s;
      assert Zeros(k) == ['0'] + Zeros(k - 1);
      assert Zeros(k) + s == ['0'] + rest;
      LeadingZeroValue(rest);
    } else {
      assert Zeros(k) + s == s;
    }
  }

  /** Any number of leading zeros is accepted and does not change the value. */
  lemma ParseLeadingZeros(k: nat, s: string)
    requires s != [] && AllDigits(s)
    ensures ParseU32(Zeros(k) + s) == ParseU32(s)
  {
    LeadingZerosValue(k, s);
    var z := Zeros(k) + s;
    assert z[0] != '+' && s[0] != '+';
  }

  /** A character that is neither a digit nor a leading `+` makes the parse fail; whitespace is never skipped. */
  lemma ParseRejectsStray(s: string, i: nat)
    requires i < |s| && !IsDigit(s[i]) && !(i == 0 && s[i] == '+')
    ensures ParseU32(s) == None
  {
    if s[0] == '+' {
      assert s[1..][i - 1] == s[i];
    }
  }
}

=== FILE: touchpad.dfy ===
/**
 * `TouchPad` (src/touchpad.rs): the located flag file together with the
 * ordinary user on whose behalf notifications are sent.
 */
module Touchpad {
  import opened Common
  import opened RustText
  import opened Paths
  import opened Locator
  import opened InhibitFlag
  import opened PermGuard
  import opened Notify

  class TouchPad {
    const uid: u32
    const gid: u32
    /** Where the flag file is. */
    const path: OsStr
    /** The flag file found at `path`. */
    const file: FlagFile

    constructor (uid: u32, gid: u32, path: OsStr, file: FlagFile)
      ensures this.uid == uid && this.gid == gid && this.path == path && this.file == file
    {
      this.uid, this.gid, this.path, this.file := uid, gid, path, file;
    }

    /**
     * `TouchPad::new`: locates the touchpad and keeps the path of its flag
     * file; exits with status 1 when no touchpad is found. `scan` is the
     * device enumeration, `file` the flag file the located path names.
     */
    static method New(uid: u32, gid: u32, scan: Option<seq<Device>>, file: FlagFile) returns (r: Fate<TouchPad>)
      ensures var found := if scan.None? then None else Locate(scan.value);
              && (found.None? ==> r == Exit(1))
              && (found.Some? ==> r.Done? && r.value.uid == uid && r.value.gid == gid
                                  && r.value.path == InhibitedPath(found.value) && r.value.file == file)
    {
      var devPath := FindTouchpadSysfs(scan);
      if devPath.None? {
        return Exit(1);
      }
      var inhibited := Join(devPath.value, InhibitedRelative);
      var pad := new TouchPad(uid, gid, inhibited, file);
      r := Done(pad);
    }

    /**
     * `status`: reads the flag file and decodes it; whether the read
     * succeeds is `readOk`.
     */
    method Status(readOk: bool) returns (f: Fate<bool>)
      ensures f == DecodeStatus(if readOk then Some(file.content) else None)
    {
      var read := file.Read(readOk);
      if read.None? {
        return Exit(1);
      }
      var parsed := ParseU32(Trim(read.value));
      if parsed.None? {
        return Exit(1);
      }
      var flag := parsed.value;
      if flag == 0 {
        f := Done(false);
      } else if flag == 1 {
        f := Done(true);
      } else {
        f := Panic;
      }
    }

    /**
     * `toggle`: reads the flag, then writes "0\n" when it read inhibited
     * and "1\n" otherwise; a failed write exits with status 1.
     */
    method Toggle(readOk: bool, writeOk: bool) returns (f: Fate<()>)
      modifies file
      ensures (f, file.content) == ToggleEffect(old(file.content), readOk, writeOk)
    {
      var st := Status(readOk);
      match st {
        case Exit(code) => return Exit(code);
        case Panic => return Panic;
        case Done(inhibited) =>
          var enable := if inhibited then "0\n" else "1\n";
          var written := file.Write(enable, writeOk);
          if !written {
            return Exit(1);
          }
          f := Done(());
      }
    }

    /**
     * The block `send_notify` runs for either message: drop the effective
     * ids to the touchpad's user, build the `sudo_send` command while they
     * are dropped, and restore them when the guard goes at the end of the
     * block. A failed drop panics (the `unwrap`), leaving whatever the
     * failed `to_user` left. The set-id grants are inputs: two for the
     * drop, two for the restore.
     */
    method SendAsUser(p: Process, env: Env, msg: string,
                      egidGranted: bool, euidGranted: bool,
                      restoreEuidGranted: bool, restoreEgidGranted: bool)
      returns (r: Fate<Notice>)
      modifies p
      ensures !(egidGranted && euidGranted) ==>
                && r == Panic && p.euid == old(p.euid)
                && p.egid == (if egidGranted then gid else old(p.egid))
                && p.calls == old(p.calls) + [SetEgid(gid)] + (if egidGranted then [SetEuid(uid)] else [])
      ensures egidGranted && euidGranted ==>
                && r == Done(Notice(SudoSendArgs(env, msg, DurationMs), uid, gid))
                && p.euid == (if restoreEuidGranted then old(p.euid) else uid)
                && p.egid == (if restoreEgidGranted then old(p.egid) else gid)
                && p.calls == old(p.calls) + [SetEgid(gid), SetEuid(uid), SetEuid(old(p.euid)), SetEgid(old(p.egid))]
      ensures p.ruid == old(p.ruid) && p.suid == old(p.suid) && p.rgid == old(p.rgid) && p.sgid == old(p.sgid)
    {
      ghost var before := p.calls;
      var guard := ToUser(p, uid, gid, egidGranted, euidGranted);
      if guard.Err? {
        return Panic;
      }
      ghost var held := p.calls;
      assert held == before + [SetEgid(gid), SetEuid(uid)];
      r := Done(Notice(SudoSendArgs(env, msg, DurationMs), p.euid, p.egid));
      Drop(p, guard.value, restoreEuidGranted, restoreEgidGranted);
      assert p.calls == held + [SetEuid(guard.value.prevUid), SetEgid(guard.value.prevGid)];
      assert p.calls == before + [SetEgid(gid), SetEuid(uid), SetEuid(guard.value.prevUid), SetEgid(guard.value.prevGid)];
    }

    /**
     * `send_notify`: reads the flag first, exiting or panicking as `status`
     * does, then sends the message for the state read from inside the
     * guarded block.
     */
    method SendNotify(p: Process, env: Env, readOk: bool,
                      egidGranted: bool, euidGranted: bool,
                      restoreEuidGranted: bool, restoreEgidGranted: bool)
      returns (r: Fate<Notice>)
      modifies p
      ensures var st := DecodeStatus(if readOk then Some(old(file.content)) else None);
              !st.Done? ==> r == (if st.Panic? then Panic else Exit(st.code))
                            && p.euid == old(p.euid) && p.egid == old(p.egid) && p.calls == old(p.calls)
      ensures var st := DecodeStatus(if readOk then Some(old(file.content)) else None);
              st.Done? && !(egidGranted && euidGranted) ==>
                && r == Panic && p.euid == old(p.euid) && p.egid == (if egidGranted then gid else old(p.egid))
                && p.calls == old(p.calls) + [SetEgid(gid)] + (if egidGranted then [SetEuid(uid)] else [])
      ensures var st := DecodeStatus(if readOk then Some(old(file.content)) else None);
              st.Done? && egidGranted && euidGranted ==>
                && r == Done(Notice(SudoSendArgs(env, Message(st.value), DurationMs), uid, gid))
                && p.euid == (if restoreEuidGranted then old(p.euid) else uid)
                && p.egid == (if restoreEgidGranted then old(p.egid) else gid)
                && p.calls == old(p.calls) + [SetEgid(gid), SetEuid(uid), SetEuid(old(p.euid)), SetEgid(old(p.egid))]
      ensures p.ruid == old(p.ruid) && p.suid == old(p.suid) && p.rgid == old(p.rgid) && p.sgid == old(p.sgid)
    {
      var st := Status(readOk);
      if st.Exit? {
        return Exit(st.code);
      } else if st.Panic? {
        return Panic;
      }
      if st.value {
        r := SendAsUser(p, env, DisabledMessage, egidGranted, euidGranted, restoreEuidGranted, restoreEgidGranted);
      } else {
        r := SendAsUser(p, env, EnabledMessage, egidGranted, euidGranted, restoreEuidGranted, restoreEgidGranted);
      }
    }
  }

  /**
   * The notification sent after a successful toggle reports the new
   * state: "disabled" exactly when the toggle inhibited the touchpad.
   */
  lemma NotifyAfterToggle(content: string, inhibited: bool)
    requires DecodeStatus(Some(content)) == Done(inhibited)
    ensures var after := ToggleEffect(content, true, true).1;
            DecodeStatus(Some(after)).Done?
            && Message(DecodeStatus(Some(after)).value) == (if inhibited then EnabledMessage else DisabledMessage)
  {
    ToggleFlips(content, inhibited);
  }
}
